=== FILE: README.md ===
# Vera meeting assistant: audio gate and session core in Dafny

This project models the main-process core of the Vera desktop meeting assistant. The capture service streams microphone chunks. Every fifth chunk is batched, checked for size and speech energy, wrapped in a WAV header and sent to a remote speech-to-text service. Non-blank text is appended to the session transcript, enriched with sentiment and advice, and stored as an insight. The session ends on an explicit stop or after 30 s without audio, and a summary is produced when the transcript has text.

The model is functional: immutable records and pure step functions over event sequences. Every external service is an outcome parameter. The services are the speech-to-text, chat-completion and sentiment services, the recorder program and the session store.

| file | module | source |
|---|---|---|
| `wrappers.dfy` | `Wrappers` | `Option`, for `T \| null` |
| `text.dfy` | `Text` | JavaScript `trim` (as a truthiness test) and ASCII `toLowerCase` |
| `bytes.dfy` | `Bytes` | Node `Buffer`: little-endian integers, int16 samples, `Buffer.concat` |
| `wav.dfy` | `Wav` | `createWavHeader`, plus an independent header reader |
| `speech.dfy` | `Speech` | `hasActualSpeech` |
| `transcription.dfy` | `Transcription` | the gate and result policy of `transcribeAudio` |
| `sentiment.dfy` | `SentimentAnalysis` | `analyzeSentiment` |
| `advice.dfy` | `GptAdvice` | `generateAdvice`, `generateSummary` |
| `capture.dfy` | `AudioCapture` | `AudioCaptureService` as a state machine |
| `session.dfy` | `Session` | the `start-session`, `audio-chunk`, `silence-detected` and `stop-session` handlers and `handleSessionEnd` |

Modelling choices:

- **Time is discrete.** `Data(now, chunk)` is a stream chunk arriving at time `now`. `Tick(now)` means the timer callback is due at `now`. The pending `setTimeout` is stored as its deadline, `now + 30000`.
- **Events run one at a time.** Each handler runs to completion before the next event starts.
- **Session ids are positive** (`SessionId`), as SQLite row ids are, so `if (currentSessionId)` becomes `currentSessionId.Some?`.
- **`trim()` is exact.** `Text.IsBlank` uses the full set of ECMAScript WhiteSpace and LineTerminator code points. `s.trim()` is falsy exactly when `IsBlank(s)` holds (`Text.TrimEmptyIffBlank`).
- **The speech test is kept in integers** as `sum |s| > 500 * n`. `Speech.MeanAboveThreshold` proves this equals the source's `sum / n > 500`, computed exactly over the reals.
- **Timings.** The silence threshold is 30 s and the energy threshold is a mean of 500.
- **Range errors are modelled.** `writeUInt32LE` throws a range error when `36 + length` does not fit in 32 bits. So `CreateWavHeader` returns `None` there. That throw happens inside `transcribeAudio`'s `try`, so the caller gets `''`.

Behaviour the code does not have:

- **Batching.** Chunks are batched by count (five). There is no pause-based segmenter and no per-frame classifier.
- **Transcription.** Only the remote service is called. The local Whisper pipeline is loaded but never used, so `TranscribeAudio` has no local-model parameter.
- **No restart guard.** `start-session` does not check for a session already in progress. It replaces the session id and clears the transcript (`Session.RestartDiscardsTranscript`). Only the capture service itself ignores a second `startRecording`.
- **No forced flush.** `handleSessionEnd` does not process the up to four buffered chunks. It leaves them in the buffer, and the next `start-session` discards them.
- **The end is not a reset.** `handleSessionEnd` keeps the session id and the transcript, so a second stop returns the same record (`Session.SecondStopSameRecord`).

## Model

| member | source | states |
|---|---|---|
| `Text.TrimStart` | src/main/transcription.ts:111 | The result is a suffix of the input; what was dropped is all whitespace; the result does not start with whitespace |
| `Text.TrimEnd` | src/main/transcription.ts:111 | The result is a prefix of the input; what was dropped is all whitespace; the result does not end with whitespace |
| `Text.Trim` | src/main/transcription.ts:111 | `trim` gives a middle slice of the input with only whitespace cut off on either side, and it neither starts nor ends with whitespace |
| `Text.TrimEmptyIffBlank` | src/main/ipc-handlers.ts:38 | `s.trim()` is empty (falsy) exactly when `s` is blank, in both directions |
| `Text.ToLower` | src/main/sentiment.ts:37 | Lower-casing keeps the length, leaves non-letters alone, shifts each upper-case letter up by 32, and gives a string with no upper-case letter |
| `Text.ToLowerFixesLower` | src/main/sentiment.ts:37 | Lower-casing changes a string exactly when it has an upper-case letter, and it is idempotent |
| `Bytes.EncodeU16LE` | src/main/transcription.ts:19-20 | `writeUInt16LE` produces exactly two bytes |
| `Bytes.DecodeU16LE` | src/main/transcription.ts:61 | A little-endian 16-bit read is below 2^16 |
| `Bytes.EncodeU32LE` | src/main/transcription.ts:15 | `writeUInt32LE` produces exactly four bytes |
| `Bytes.DecodeU32LE` | src/main/transcription.ts:15 | A little-endian 32-bit read is below 2^32 |
| `Bytes.U16RoundTrip` | src/main/transcription.ts:19-20 | Reading back a written u16 gives the value |
| `Bytes.U16Canonical` | src/main/transcription.ts:19-20 | Any two bytes are the encoding of what they decode to |
| `Bytes.U32RoundTrip` | src/main/transcription.ts:15 | Reading back a written u32 gives the value |
| `Bytes.U32Canonical` | src/main/transcription.ts:26 | Any four bytes are the encoding of what they decode to |
| `Bytes.ReadInt16LE` | src/main/transcription.ts:61 | `readInt16LE` gives a sample in -32768..32767 |
| `Bytes.EncodeInt16LE` | src/main/transcription.ts:59-62 | A two's-complement sample is two bytes |
| `Bytes.Int16RoundTrip` | src/main/transcription.ts:59-62 | Reading back a written sample gives the sample, negative ones included |
| `Bytes.Int16Canonical` | src/main/transcription.ts:59-62 | Any two bytes are the encoding of the sample read from them |
| `Bytes.Ascii` | src/main/transcription.ts:14 | Writing an ASCII tag gives one byte per character, and byte i is the code of character i |
| `Bytes.ConcatAppend` | src/main/ipc-handlers.ts:26-31 | Buffering one more chunk adds its bytes at the end of the concatenation |
| `Bytes.Concat` | src/main/ipc-handlers.ts:31 | `Buffer.concat` is as long as all the chunks together, and it ends with the last chunk's bytes |
| `Wav.CreateWavHeader` | src/main/transcription.ts:12-28 | Header exists iff `36 + len < 2^32`; then it is 44 bytes; `RIFF`/`WAVE`/`fmt `/`data` are at 0/8/12/36; it reads back fmt size 16, PCM 1, mono, 16000 Hz, 32000 B/s, block 2, 16 bits, size fields `36 + len` and `len` |
| `Wav.TagBytes` | src/main/transcription.ts:14-25 | The tags written at offsets 0, 8, 12 and 36 are the bytes 52 49 46 46, 57 41 56 45, 66 6D 74 20 and 64 61 74 61 (hex) |
| `Wav.ParseCreateRoundTrip` | src/main/transcription.ts:96-97 | Reading the header of `header(len) ++ samples` gives back `len` |
| `Wav.FieldsDetermineBytes` | src/main/transcription.ts:13-26 | Two headers whose fields decode to the same values are byte-for-byte equal |
| `Wav.CreateParseRoundTrip` | src/main/transcription.ts:12-28 | Any buffer whose header reads as length `n` starts with exactly `createWavHeader(n)` |
| `Wav.HeaderSelfConsistent` | src/main/transcription.ts:21-24 | Byte rate = sample rate × block align; block align × 8 = channels × bits per sample |
| `Wav.RiffSizeIsFileLengthMinus8` | src/main/transcription.ts:15 | The RIFF size field of the WAV file sent equals the file length minus 8 |
| `Speech.Samples` | src/main/transcription.ts:59-62 | `floor(len / 2)` samples, the i-th being the int16 at byte `2i` |
| `Speech.HasActualSpeech` | src/main/transcription.ts:58-74 | Audio judged to be speech has at least one sample (with none, the average is NaN and the test is false) |
| `Speech.ScanForSpeech` | src/main/transcription.ts:58-74 | The source's decode loop and sum loop return true iff `sum |s| > 500 * floor(len/2)` |
| `Speech.SumAbsAtMostThreshold` | src/main/transcription.ts:65-68 | If no sample's magnitude exceeds 500, the sum is at most `500 * n` |
| `Speech.SumAbsAboveThreshold` | src/main/transcription.ts:65-68 | If every one of `n > 0` samples exceeds 500 in magnitude, the sum exceeds `500 * n` |
| `Speech.QuietAudioIsNotSpeech` | src/main/transcription.ts:71-73 | Audio with no sample louder than 500 is never speech |
| `Speech.LoudAudioIsSpeech` | src/main/transcription.ts:71-73 | Non-empty audio with every sample louder than 500 is always speech |
| `Speech.MeanVersusSum` | src/main/transcription.ts:69-73 | For `n > 0`, `sum / n > 500` over the reals iff `sum > 500 n` |
| `Speech.MeanAboveThreshold` | src/main/transcription.ts:69-73 | The integer test equals the source's `average > 500` (exact arithmetic); with no samples, `0/0` is NaN and both are false |
| `Transcription.Admit` | src/main/transcription.ts:78-87 | Below 2000 bytes it is "too small" regardless of energy; otherwise it is "no speech" iff the energy test fails; otherwise admitted |
| `Transcription.TranscribeAudio` | src/main/transcription.ts:76-122 | Result is `''` or non-blank. A rejected buffer sends nothing. An admitted one is sent as `header(len) ++ buffer` iff a client exists, locating and writing the temp file succeeds, and the header fits. The text is the service's own, untrimmed, exactly when it was sent and the reply is non-blank. No client, a throw or a blank reply give `''` |
| `Transcription.SentFileCarriesAudio` | src/main/transcription.ts:96-97 | The file sent parses as a WAV header announcing the buffer length, its body is the buffer, and its RIFF size is its length minus 8 |
| `Transcription.TooSmallNeverTranscribed` | src/main/transcription.ts:78-81 | Under 2000 bytes: no call and `''`, whatever the energy |
| `Transcription.QuietAudioNeverTranscribed` | src/main/transcription.ts:84-87 | Audio with no sample louder than 500: no call and `''` |
| `SentimentAnalysis.AnalyzeSentiment` | src/main/sentiment.ts:27-45 | Label is always lower case. No pipeline, a throw, or an empty result array gives `neutral`/0.5. Otherwise the label is exactly the first result's label lower-cased, with its score |
| `SentimentAnalysis.LowerLabelKept` | src/main/sentiment.ts:36-40 | A label already in lower case is passed on unchanged with its score |
| `GptAdvice.GenerateAdvice` | src/main/gpt-advice.ts:12-38 | Never empty. No client gives "GPT service not available". A failure or no choices gives "Unable to generate advice". Non-empty content is returned verbatim; null or `""` gives "No advice generated." |
| `GptAdvice.ParseContent` | src/main/gpt-advice.ts:71 | Null or empty content parses as `{}`; other content as given |
| `GptAdvice.WithDefaults` | src/main/gpt-advice.ts:72-76 | Summary is never empty. A falsy summary becomes "No summary available". Absent lists become `[]`. Present values are kept |
| `GptAdvice.GenerateSummary` | src/main/gpt-advice.ts:40-84 | Summary text is never empty. No client gives the "not available" placeholder. A failure, no choices, unparsable content or JSON `null` gives the "Unable to generate summary" placeholder. A parsed value gets the field defaults |
| `GptAdvice.EmptyContentGivesDefaults` | src/main/gpt-advice.ts:71-76 | Null or empty content gives `{No summary available, [], []}` |
| `GptAdvice.ParsedListsKept` | src/main/gpt-advice.ts:74-75 | For parsed content the lists are the parsed ones, or `[]` when absent |
| `AudioCapture.StartRecording` | src/main/audio-capture.ts:19-59 | While recording nothing changes and nothing is emitted. Otherwise recording begins iff the recorder started, and a failed start emits `error`. Starting never arms the timer |
| `AudioCapture.ClearSilenceTimer` | src/main/audio-capture.ts:80-85 | Nothing is pending afterwards; recorder and flag untouched |
| `AudioCapture.ResetSilenceTimer` | src/main/audio-capture.ts:71-78 | Exactly one deadline is pending, at `now + 30000`, replacing any earlier one |
| `AudioCapture.StopRecording` | src/main/audio-capture.ts:61-69 | Not recording, no recorder, no pending timer, from any state |
| `AudioCapture.OnData` | src/main/audio-capture.ts:44-47 | A chunk re-arms the deadline at `now + 30000` before `audio-chunk` is emitted with that chunk |
| `AudioCapture.OnTick` | src/main/audio-capture.ts:73-76 | Emits `silence-detected` iff a deadline is pending and due, and then the service is stopped with nothing pending. Otherwise nothing changes |
| `AudioCapture.Next` | src/main/audio-capture.ts:13-86 | Every operation keeps "a timer only while recording, recording only with a recorder" |
| `AudioCapture.Run` | src/main/audio-capture.ts:13-86 | The invariant holds after any input sequence |
| `AudioCapture.StopIdempotent` | src/main/audio-capture.ts:61-69 | Stopping twice is stopping once, and it leaves the freshly constructed state |
| `AudioCapture.DeadlineFollowsLastChunk` | src/main/audio-capture.ts:44-47 | From a state with nothing pending, any pending deadline is the last chunk's time plus 30000 |
| `AudioCapture.SilenceOnlyAfterQuietPeriod` | src/main/audio-capture.ts:71-78 | Silence is announced only if a chunk arrived and at least 30000 ms have passed since the last one |
| `AudioCapture.NoChunkNoSilence` | src/main/audio-capture.ts:44-47 | From a state with nothing pending, inputs without a chunk never arm the timer or announce silence |
| `AudioCapture.FiresAtMostOnce` | src/main/audio-capture.ts:73-76 | After the timer fires it cannot fire again before a new chunk |
| `Session.InitialValid` | src/main/ipc-handlers.ts:9-13 | Before any event there is no session id, no service, an empty buffer and an empty transcript, and the handler invariant holds |
| `Session.OnStartSession` | src/main/ipc-handlers.ts:16-77 | Afterwards the id is the new one, buffer empty, count 0 and transcript `''`, whatever came before. The new service records iff its recorder started, with no deadline. The reply carries the new id |
| `Session.InsightEffects` | src/main/ipc-handlers.ts:41-57 | An insight is stored only under the current session id and only for the given text. Whenever a session id is set it is stored first, with the label of `analyzeSentiment` and the text of `generateAdvice`. The same text, label and advice are sent to the renderer exactly when a window exists. There are no other effects: at most one stored and one sent |
| `Session.OnAudioChunk` | src/main/ipc-handlers.ts:25-60 | Count stays equal to the buffer length and below 5. Chunks 1-4 are only buffered. The fifth empties the buffer and transcribes the buffered bytes followed by the new chunk. The transcript is unchanged or gains `' '` + non-blank text. Insights are stored exactly for that text under the current id. When the transcript grows, the effects after the batch are exactly the insight effects of the appended text. A blank transcription has no effect beyond the request itself |
| `Session.HandleSessionEnd` | src/main/ipc-handlers.ts:93-119 | Always drops the service, and nothing else changes. A record exists iff an id is set and the transcript is not blank. It holds that transcript, that id and the summary, and the session is persisted. Otherwise no effects |
| `Session.OnSilence` | src/main/ipc-handlers.ts:62-69 | With a record, the session is persisted with its transcript and summary and the window is resized, then `session-end` is sent carrying that record iff a window exists. Without a record there is no effect |
| `Session.Deliver` | src/main/ipc-handlers.ts:25-73 | Each listener keeps the handler invariant and never shortens the transcript |
| `Session.Dispatch` | src/main/ipc-handlers.ts:25-73 | Delivering the emitted signals in order keeps the invariant and never shortens the transcript |
| `Session.Next` | src/main/ipc-handlers.ts:16-82 | Every event keeps "count equals buffer length, below 5". Every event but `start-session` never shortens the transcript |
| `Session.Run` | src/main/ipc-handlers.ts:16-82 | The handler invariant holds after any event sequence |
| `Session.TranscriptOnlyGrows` | src/main/ipc-handlers.ts:38-39 | Until the next `start-session`, the transcript after any events extends the one before |
| `Session.BatchTextAppended` | src/main/ipc-handlers.ts:36-39 | On the fifth chunk the transcript gains `' '` + the batch's transcription exactly when that transcription is not `''` |
| `Session.FeedChunks` | src/main/ipc-handlers.ts:25-36 | The invariant holds after any run of chunks |
| `Session.ChunksBufferedInOrder` | src/main/ipc-handlers.ts:26-33 | From an empty buffer, fewer than five chunks are buffered in arrival order, with a matching count and no effect |
| `Session.FiveChunksMakeOneBatch` | src/main/ipc-handlers.ts:30-36 | From an empty buffer, five chunks give exactly one transcription: their in-order concatenation, as long as the five chunks together, with the buffer empty again |
| `Session.AudioDataReachesListener` | src/main/audio-capture.ts:44-47 | A chunk from a recording service first re-arms its silence timer and then reaches the `audio-chunk` listener unchanged. With no recording service the chunk has no effect |
| `Session.BatchedAsStep` | src/main/ipc-handlers.ts:26-33 | One more chunk either joins the leftover chunks or, as the fifth, completes the next run of five and empties the buffer |
| `Session.EveryFifthChunkMakesABatch` | src/main/ipc-handlers.ts:25-36 | From an empty buffer, any number of chunks gives one transcription per complete run of five: the k-th is chunks 5k to 5k+4 concatenated in order, and the chunks after the last complete run stay buffered |
| `Session.SecondStopSameRecord` | src/main/ipc-handlers.ts:93-119 | A second stop returns a record iff the first did, with the same transcript and id |
| `Session.RestartDiscardsTranscript` | src/main/ipc-handlers.ts:16-21 | `start-session` during a recording still clears the transcript and replaces the id |
| `Session.SilenceEndsSession` | src/main/ipc-handlers.ts:62-69 | A due timer drops the service and keeps everything else. With a record, the session is persisted with the generated summary and the window is resized, and `session-end` is sent iff a window exists. Without a record there is no effect. A timer that is not due changes nothing |

## Left out

- I/O and the services themselves are outcome parameters: the temp-file write and unlink, the speech-to-text, chat and sentiment calls, SQLite, and the recorder program. Inside `transcribeAudio`'s `try`, a throw while locating or writing the temp file is the `SetupFailed` outcome, and a throw from the request or the cleanup is `Threw`. `createSession` is a fresh positive id. `addInsight`, `endSession`, `resizeToSummary` and IPC sends are effect records.
- `Date.now` and `setTimeout` are replaced by the explicit `now` of each event. The insight timestamp is not modelled.
- `initializeTranscription`, `initializeSentiment` and `initializeGPT` are not modelled, nor the `isInitializing` flag. Whether a client or pipeline exists is part of each outcome. The loaded Whisper pipeline is never called by `transcribeAudio`.
- Async interleaving is not modelled. In the source, two batches can await transcription at once and append out of order, and a handler's awaits can interleave with other events. The model runs each handler to completion, so it cannot show out-of-order appends.
- The model drops the capture service that `start-session` replaces. In the source that old service is never stopped, and its listeners still feed the same module variables.
- AudioCapture.OnData: ignores a chunk when the service is not recording. The source has no such guard; the model assumes the stream delivers nothing before a successful start or after `recorder.stop()`. At session level this changes nothing, because `handleSessionEnd` removes all listeners when it stops the service (src/main/ipc-handlers.ts:98-101).
- Stream `error` events and the `error` listener only log, so they have no effect in the model.
- Logging (`console.*`) and the `get-history` and `resize-to-compact` handlers are not modelled.
- JSON typing: the summary's fields are typed `Option`s. A `keyPoints` that is not an array, or a non-string `summary`, is not modelled. Every non-null JSON value that parses is treated as an object whose absent fields read as `undefined`.
- SentimentAnalysis.AnalyzeSentiment: lower-cases ASCII letters only, because full Unicode `toLowerCase` (locale-independent case mapping tables) is outside the model.
- Speech.ScanForSpeech: compares exactly, while the source divides in double precision. The two can differ only when the sample count exceeds about 2^44, far beyond any buffer the recorder produces.
- Transcription.TranscribeAudio: a missing response `text` is modelled as `""`, which the source treats the same way (falsy).
- The renderer, preload bridge, window geometry and app bootstrap are not part of this model.

=== FILE: advice.dfy ===
/**
 * `generateAdvice` and `generateSummary`: one chat-completion call each,
 * with every failure replaced by a fixed placeholder, so neither ever fails.
 */
module GptAdvice {
  import opened Wrappers

  /** What the chat-completion service does with one request; `C` is what
      the caller gets out of a choice's `message.content`. */
  datatype Chat<C> =
    | NoClient                   // no API key was configured
    | Failed                     // the request rejected
    | Completed(choices: seq<C>)

  const NotAvailable: string := "GPT service not available"
  const NoAdvice: string := "No advice generated."
  const AdviceFailed: string := "Unable to generate advice"
  const NoSummary: string := "No summary available"
  const SummaryFailed: string := "Unable to generate summary"

  /** `generateAdvice`: a choice's content is a string or null. */
  function GenerateAdvice(chat: Chat<Option<string>>): (r: string)
    // advice is never empty
    ensures r != ""
    ensures chat.NoClient? ==> r == NotAvailable
    // with no choices, `choices[0].message` throws inside the `try`
    ensures chat.Failed? || (chat.Completed? && |chat.choices| == 0) ==> r == AdviceFailed
    // non-empty content is returned verbatim; null or "" is falsy
    ensures chat.Completed? && |chat.choices| > 0 ==>
      match chat.choices[0]
      case Some(content) => r == (if content == "" then NoAdvice else content)
      case None => r == NoAdvice
  {
    match chat
    case NoClient => NotAvailable
    case Failed => AdviceFailed
    case Completed(choices) =>
      if |choices| == 0 then AdviceFailed
      else
        var content := choices[0].GetOr("");
        if content == "" then NoAdvice else content
  }

  datatype Summary = Summary(summary: string, keyPoints: seq<string>, actionItems: seq<string>)

  /** The three fields read from the parsed JSON value; `None` is an absent
      or null field. Field values of other JSON types are not modelled. */
  datatype Fields = Fields(summary: Option<string>, keyPoints: Option<seq<string>>, actionItems: Option<seq<string>>)

  /** What `JSON.parse` makes of a content string. */
  datatype Parse =
    | SyntaxError      // not JSON: the parse throws
    | JsonNull         // the literal `null`: reading `.summary` then throws
    | Value(fields: Fields)

  /** A choice's content for the summary request: null, or a string together
      with what parsing that string gives. */
  datatype Content = NullContent | Raw(text: string, parse: Parse)

  const NoFields: Fields := Fields(None, None, None)

  /** `JSON.parse(content || '{}')`: null or empty content parses as `{}`. */
  function ParseContent(c: Content): (p: Parse)
    ensures c.NullContent? || c.text == "" ==> p == Value(NoFields)
    ensures c.Raw? && c.text != "" ==> p == c.parse
  {
    match c
    case NullContent => Value(NoFields)
    case Raw(text, parse) => if text == "" then Value(NoFields) else parse
  }

  /** The field defaults: a falsy summary (absent, null or "") and absent lists. */
  function WithDefaults(f: Fields): (s: Summary)
    ensures s.summary != ""
    ensures f.summary.Some? && f.summary.value != "" ==> s.summary == f.summary.value
    ensures f.summary.None? || f.summary.value == "" ==> s.summary == NoSummary
    ensures f.keyPoints.Some? ==> s.keyPoints == f.keyPoints.value
    ensures f.keyPoints.None? ==> s.keyPoints == []
    ensures f.actionItems.Some? ==> s.actionItems == f.actionItems.value
    ensures f.actionItems.None? ==> s.actionItems == []
  {
    Summary(
      if f.summary.GetOr("") == "" then NoSummary else f.summary.value,
      f.keyPoints.GetOr([]),
      f.actionItems.GetOr([]))
  }

  function GenerateSummary(chat: Chat<Content>): (r: Summary)
    // the summary text is never empty
    ensures r.summary != ""
    ensures chat.NoClient? ==> r == Summary(NotAvailable, [], [])
    ensures chat.Failed? || (chat.Completed? && |chat.choices| == 0) ==> r == Summary(SummaryFailed, [], [])
    ensures chat.Completed? && |chat.choices| > 0 ==>
      match ParseContent(chat.choices[0])
      case Value(f) => r == WithDefaults(f)
      case _ => r == Summary(SummaryFailed, [], [])
  {
    match chat
    case NoClient => Summary(NotAvailable, [], [])
    case Failed => Summary(SummaryFailed, [], [])
    case Completed(choices) =>
      if |choices| == 0 then Summary(SummaryFailed, [], [])
      else
        match ParseContent(choices[0])
        case Value(f) => WithDefaults(f)
        case _ => Summary(SummaryFailed, [], [])
  }

  /** Null or empty content applies every default. */
  lemma EmptyContentGivesDefaults(chat: Chat<Content>)
    requires chat.Completed? && |chat.choices| > 0
    requires chat.choices[0].NullContent? || chat.choices[0].text == ""
    ensures GenerateSummary(chat) == Summary(NoSummary, [], [])
  {
  }

  /** Only the missing client, a failure, or content that is not a JSON
      object gives a placeholder with both lists empty; any parsed object
      keeps its lists. */
  lemma ParsedListsKept(chat: Chat<Content>)
    requires chat.Completed? && |chat.choices| > 0
    requires ParseContent(chat.choices[0]).Value?
    ensures GenerateSummary(chat).keyPoints == ParseContent(chat.choices[0]).fields.keyPoints.GetOr([])
    ensures GenerateSummary(chat).actionItems == ParseContent(chat.choices[0]).fields.actionItems.GetOr([])
  {
  }
}

=== FILE: bytes.dfy ===
/**
 * Byte buffers as Node's `Buffer` exposes them: little-endian fixed-width
 * integers, two's-complement 16-bit samples, ASCII writes and `Buffer.concat`.
 */
module Bytes {

  type byte = x: int | 0 <= x < 256

  const TwoTo16: int := 0x1_0000
  const TwoTo32: int := 0x1_0000_0000

  /** `writeUInt16LE`: least significant byte first. */
  function EncodeU16LE(v: nat): (r: seq<byte>)
    requires v < TwoTo16
    ensures |r| == 2
  {
    [v % 256, v / 256]
  }

  /** `readUInt16LE`. */
  function DecodeU16LE(b: seq<byte>): (v: nat)
    requires |b| == 2
    ensures v < TwoTo16
  {
    b[0] as int + 256 * b[1] as int
  }

  /** `writeUInt32LE`: least significant byte first. */
  function EncodeU32LE(v: nat): (r: seq<byte>)
    requires v < TwoTo32
    ensures |r| == 4
  {
    [v % 256, v / 256 % 256, v / 256 / 256 % 256, v / 256 / 256 / 256]
  }

  /** `readUInt32LE`. */
  function DecodeU32LE(b: seq<byte>): (v: nat)
    requires |b| == 4
    ensures v < TwoTo32
  {
    b[0] as int + 256 * (b[1] as int + 256 * (b[2] as int + 256 * b[3] as int))
  }

  lemma U16RoundTrip(v: nat)
    requires v < TwoTo16
    ensures DecodeU16LE(EncodeU16LE(v)) == v
  {
  }

  /** Every two bytes are the encoding of the value they decode to. */
  lemma U16Canonical(b: seq<byte>)
    requires |b| == 2
    ensures EncodeU16LE(DecodeU16LE(b)) == b
  {
  }

  /** One step of little-endian splitting: the low byte and the rest. */
  lemma SplitLowByte(low: int, high: nat)
    requires 0 <= low < 256
    ensures (low + 256 * high) % 256 == low
    ensures (low + 256 * high) / 256 == high
  {
  }

  lemma U32RoundTrip(v: nat)
    requires v < TwoTo32
    ensures DecodeU32LE(EncodeU32LE(v)) == v
  {
    SplitLowByte(v % 256, v / 256);
    SplitLowByte(v / 256 % 256, v / 256 / 256);
    SplitLowByte(v / 256 / 256 % 256, v / 256 / 256 / 256);
  }

  /** Every four bytes are the encoding of the value they decode to. */
  lemma U32Canonical(b: seq<byte>)
    requires |b| == 4
    ensures EncodeU32LE(DecodeU32LE(b)) == b
  {
    var high2 := b[2] as int + 256 * b[3] as int;
    var high1 := b[1] as int + 256 * high2;
    SplitLowByte(b[0], high1);
    SplitLowByte(b[1], high2);
    SplitLowByte(b[2], b[3]);
  }

  /** `readInt16LE(offset)`: the two bytes at `offset` as a two's-complement sample. */
  function ReadInt16LE(b: seq<byte>, offset: nat): (s: int)
    requires offset + 2 <= |b|
    ensures -0x8000 <= s < 0x8000
  {
    var u := DecodeU16LE(b[offset..offset + 2]);
    if u >= 0x8000 then u - TwoTo16 else u
  }

  /** `writeInt16LE`: the two's-complement encoding of a sample. */
  function EncodeInt16LE(s: int): (r: seq<byte>)
    requires -0x8000 <= s < 0x8000
    ensures |r| == 2
  {
    EncodeU16LE(if s < 0 then s + TwoTo16 else s)
  }

  /** Reading back a written sample gives the sample. */
  lemma Int16RoundTrip(s: int)
    requires -0x8000 <= s < 0x8000
    ensures ReadInt16LE(EncodeInt16LE(s), 0) == s
  {
    var b := EncodeInt16LE(s);
    assert b[0..2] == b;
    U16RoundTrip(if s < 0 then s + TwoTo16 else s);
  }

  /** Every two bytes are the encoding of the sample read from them. */
  lemma Int16Canonical(b: seq<byte>)
    requires |b| == 2
    ensures EncodeInt16LE(ReadInt16LE(b, 0)) == b
  {
    assert b[0..2] == b;
    U16Canonical(b);
  }

  predicate IsAscii(s: string) {
    forall i :: 0 <= i < |s| ==> s[i] as int < 128
  }

  /** `Buffer.write` of an ASCII string: one byte per character. */
  function Ascii(s: string): (r: seq<byte>)
    requires IsAscii(s)
    ensures |r| == |s|
    ensures forall i :: 0 <= i < |s| ==> r[i] == s[i] as int
  {
    seq(|s|, i requires 0 <= i < |s| => s[i] as int)
  }

  /** The total length of a list of chunks. */
  function TotalLength(chunks: seq<seq<byte>>): nat
    decreases |chunks|
  {
    if |chunks| == 0 then 0 else TotalLength(chunks[..|chunks| - 1]) + |chunks[|chunks| - 1]|
  }

  /** `Buffer.concat`: the chunks back to back, in order. */
  function Concat(chunks: seq<seq<byte>>): (r: seq<byte>)
    ensures |r| == TotalLength(chunks)
    ensures |chunks| > 0 ==> r[|r| - |chunks[|chunks| - 1]|..] == chunks[|chunks| - 1]
    decreases |chunks|
  {
    if |chunks| == 0 then [] else Concat(chunks[..|chunks| - 1]) + chunks[|chunks| - 1]
  }

  /** Adding a chunk to the list adds its bytes at the end. */
  lemma ConcatAppend(chunks: seq<seq<byte>>, chunk: seq<byte>)
    ensures Concat(chunks + [chunk]) == Concat(chunks) + chunk
  {
    assert (chunks + [chunk])[..|chunks|] == chunks;
  }
}

=== FILE: capture.dfy ===
/**
 * `AudioCaptureService`: a recording flag, a recorder handle and a single
 * re-armable silence deadline. Time is discrete: `Tick(now)` stands for the
 * timer callback becoming due, and the pending `setTimeout` is the deadline
 * it was armed for.
 */
module AudioCapture {
  import opened Wrappers
  import opened Bytes

  const SilenceThresholdMs: int := 30000

  datatype Capture = Capture(hasRecorder: bool, isRecording: bool, silenceDeadline: Option<int>)

  /** A freshly constructed service. */
  const Initial: Capture := Capture(false, false, None)

  /** What loading and starting the external recorder program does. */
  datatype StartOutcome =
    | Started        // recorder built, stream obtained
    | LoadFailed     // the recorder module could not be loaded or built
    | StreamFailed   // recorder built, but starting its stream threw

  /** Events the service emits to its listeners. */
  datatype Signal = AudioChunk(chunk: seq<byte>) | SilenceDetected | Error

  datatype Input = Start(outcome: StartOutcome) | Data(now: int, chunk: seq<byte>) | Tick(now: int) | Stop

  datatype Step = Step(state: Capture, signals: seq<Signal>)

  /** A timer is only pending while recording, and recording needs a recorder. */
  predicate Valid(c: Capture) {
    && (c.silenceDeadline.Some? ==> c.isRecording)
    && (c.isRecording ==> c.hasRecorder)
  }

  /** `startRecording`. */
  function StartRecording(c: Capture, outcome: StartOutcome): (r: Step)
    requires Valid(c)
    ensures Valid(r.state)
    // already recording: nothing at all happens
    ensures c.isRecording ==> r == Step(c, [])
    // otherwise recording begins exactly when the recorder started
    ensures !c.isRecording ==> (r.state.isRecording <==> outcome == Started)
    ensures !c.isRecording && outcome != Started ==> r.signals == [Error]
    ensures !c.isRecording && outcome == Started ==> r.signals == [] && r.state.hasRecorder
    // starting never arms the silence timer
    ensures r.state.silenceDeadline == c.silenceDeadline
  {
    if c.isRecording then Step(c, [])
    else
      match outcome
      case Started => Step(c.(hasRecorder := true, isRecording := true), [])
      case LoadFailed => Step(c, [Error])
      case StreamFailed => Step(c.(hasRecorder := true), [Error])
  }

  /** `clearSilenceTimer`. */
  function ClearSilenceTimer(c: Capture): (r: Capture)
    ensures r.silenceDeadline.None?
    ensures r.hasRecorder == c.hasRecorder && r.isRecording == c.isRecording
  {
    c.(silenceDeadline := None)
  }

  /** `resetSilenceTimer`: whatever was pending is replaced by one deadline
      a full threshold after `now`. */
  function ResetSilenceTimer(c: Capture, now: int): (r: Capture)
    ensures r.silenceDeadline == Some(now + SilenceThresholdMs)
    ensures r.hasRecorder == c.hasRecorder && r.isRecording == c.isRecording
  {
    ClearSilenceTimer(c).(silenceDeadline := Some(now + SilenceThresholdMs))
  }

  /** `stopRecording`. */
  function StopRecording(c: Capture): (r: Capture)
    ensures !r.isRecording && !r.hasRecorder && r.silenceDeadline.None?
    ensures Valid(r)
  {
    ClearSilenceTimer(c.(hasRecorder := false)).(isRecording := false)
  }

  /** The stream's data handler: re-arm the timer, then hand the chunk on.
      The handler itself has no guard; the model assumes the recorder's
      stream delivers nothing before a successful start or after
      `recorder.stop()`, so data while not recording is ignored. */
  function OnData(c: Capture, now: int, chunk: seq<byte>): (r: Step)
    requires Valid(c)
    ensures Valid(r.state)
    ensures c.isRecording ==> r == Step(ResetSilenceTimer(c, now), [AudioChunk(chunk)])
    ensures !c.isRecording ==> r == Step(c, [])
  {
    if c.isRecording then Step(ResetSilenceTimer(c, now), [AudioChunk(chunk)]) else Step(c, [])
  }

  /** The timer callback: once due, announce the silence, then stop. */
  function OnTick(c: Capture, now: int): (r: Step)
    requires Valid(c)
    ensures Valid(r.state)
    ensures r.signals == [] || r.signals == [SilenceDetected]
    ensures r.signals == [SilenceDetected] <==> c.silenceDeadline.Some? && now >= c.silenceDeadline.value
    // after firing nothing is pending and nothing is recording
    ensures r.signals != [] ==> r.state == StopRecording(c)
    ensures r.signals == [] ==> r.state == c
  {
    match c.silenceDeadline
    case Some(deadline) =>
      if now >= deadline then Step(StopRecording(c), [SilenceDetected]) else Step(c, [])
    case None => Step(c, [])
  }

  function Next(c: Capture, input: Input): (r: Step)
    requires Valid(c)
    ensures Valid(r.state)
  {
    match input
    case Start(outcome) => StartRecording(c, outcome)
    case Data(now, chunk) => OnData(c, now, chunk)
    case Tick(now) => OnTick(c, now)
    case Stop => Step(StopRecording(c), [])
  }

  /** The inputs in order, with everything emitted along the way. */
  function Run(c: Capture, inputs: seq<Input>): (r: Step)
    requires Valid(c)
    ensures Valid(r.state)
    decreases |inputs|
  {
    if |inputs| == 0 then Step(c, [])
    else
      var before := Run(c, inputs[..|inputs| - 1]);
      var last := Next(before.state, inputs[|inputs| - 1]);
      Step(last.state, before.signals + last.signals)
  }

  /** The time of the last data chunk among the inputs, if there was one. */
  function LastDataTime(inputs: seq<Input>): Option<int>
    decreases |inputs|
  {
    if |inputs| == 0 then None
    else if inputs[|inputs| - 1].Data? then Some(inputs[|inputs| - 1].now)
    else LastDataTime(inputs[..|inputs| - 1])
  }

  /** `stopRecording` leaves nothing running whatever the state, so calling
      it twice is the same as calling it once. */
  lemma StopIdempotent(c: Capture)
    ensures StopRecording(StopRecording(c)) == StopRecording(c)
    ensures StopRecording(c) == Initial
  {
  }

  /** From a state with nothing pending, a pending deadline is always the
      last chunk's time plus the threshold: only the data handler arms the
      timer, and every chunk replaces the previous deadline. */
  lemma {:induction false} DeadlineFollowsLastChunk(c: Capture, inputs: seq<Input>)
    requires Valid(c) && c.silenceDeadline.None?
    ensures var d := Run(c, inputs).state.silenceDeadline;
      d.Some? ==> LastDataTime(inputs) == Some(d.value - SilenceThresholdMs)
    decreases |inputs|
  {
    if |inputs| > 0 {
      DeadlineFollowsLastChunk(c, inputs[..|inputs| - 1]);
    }
  }

  /** Silence is announced only once a full threshold has passed since the
      last chunk, with no chunk in between. */
  lemma SilenceOnlyAfterQuietPeriod(c: Capture, inputs: seq<Input>, now: int)
    requires Valid(c) && c.silenceDeadline.None?
    requires SilenceDetected in Next(Run(c, inputs).state, Tick(now)).signals
    ensures LastDataTime(inputs).Some?
    ensures now >= LastDataTime(inputs).value + SilenceThresholdMs
  {
    DeadlineFollowsLastChunk(c, inputs);
  }

  /** With nothing pending, no sequence of inputs without a data chunk arms
      the timer or announces silence. So no deadline exists before the first
      chunk, and after firing the timer cannot fire again until a new chunk. */
  lemma {:induction false} NoChunkNoSilence(c: Capture, inputs: seq<Input>)
    requires Valid(c) && c.silenceDeadline.None?
    requires forall i :: 0 <= i < |inputs| ==> !inputs[i].Data?
    ensures Run(c, inputs).state.silenceDeadline.None?
    ensures SilenceDetected !in Run(c, inputs).signals
    decreases |inputs|
  {
    if |inputs| > 0 {
      NoChunkNoSilence(c, inputs[..|inputs| - 1]);
    }
  }

  /** A firing tick leaves nothing pending, so it fires at most once per chunk. */
  lemma FiresAtMostOnce(c: Capture, now: int, later: seq<Input>)
    requires Valid(c)
    requires OnTick(c, now).signals == [SilenceDetected]
    requires forall i :: 0 <= i < |later| ==> !later[i].Data?
    ensures SilenceDetected !in Run(OnTick(c, now).state, later).signals
  {
    NoChunkNoSilence(OnTick(c, now).state, later);
  }
}

=== FILE: sentiment.dfy ===
/**
 * `analyzeSentiment`: the classifier pipeline's first result, lower-cased,
 * or a neutral default whenever the pipeline is missing or fails.
 */
module SentimentAnalysis {
  import opened Text

  /** One entry of the pipeline's result array; `name` is the source's `label`. */
  datatype Prediction = Prediction(name: string, score: real)

  /** What the sentiment pipeline does with one text. */
  datatype Classifier =
    | NoPipeline                  // the model failed to load at start-up
    | Threw                       // the pipeline call rejected
    | Classified(results: seq<Prediction>)

  /** The result handed on; `name` is the source's `label`. */
  datatype Sentiment = Sentiment(name: string, score: real)

  const Neutral: Sentiment := Sentiment("neutral", 0.5)

  function AnalyzeSentiment(c: Classifier): (r: Sentiment)
    // the label handed on is always lower case
    ensures IsLower(r.name)
    // a missing pipeline, a failure, or an empty result array (reading
    // `result[0].name` throws inside the `try`) all give the default
    ensures (c.NoPipeline? || c.Threw? || (c.Classified? && |c.results| == 0)) ==> r == Neutral
    // otherwise the first result, its label lower-cased and its score kept
    ensures c.Classified? && |c.results| > 0 ==>
      && |r.name| == |c.results[0].name|
      && (forall i :: 0 <= i < |r.name| && IsLowerChar(c.results[0].name[i]) ==> r.name[i] == c.results[0].name[i])
      && r.score == c.results[0].score
    ensures c.Classified? && |c.results| > 0 ==> r.name == ToLower(c.results[0].name)
  {
    match c
    case NoPipeline => Neutral
    case Threw => Neutral
    case Classified(results) =>
      if |results| == 0 then Neutral
      else Sentiment(ToLower(results[0].name), results[0].score)
  }

  /** A label the pipeline already reports in lower case is passed on unchanged. */
  lemma LowerLabelKept(c: Classifier)
    requires c.Classified? && |c.results| > 0 && IsLower(c.results[0].name)
    ensures AnalyzeSentiment(c) == Sentiment(c.results[0].name, c.results[0].score)
  {
    ToLowerFixesLower(c.results[0].name);
  }
}

=== FILE: session.dfy ===
/**
 * The main-process session handlers: `start-session` resets the session
 * state and starts a fresh capture service, every fifth audio chunk is
 * transcribed as one batch and appended to the transcript, and
 * `handleSessionEnd` (reached from `stop-session` or from the silence timer)
 * stops capture and returns the session record when there is text.
 *
 * Handlers run one at a time, each to completion: the awaits inside a
 * handler are not interleaved with other events.
 */
module Session {
  import opened Wrappers
  import opened Bytes
  import opened Text
  import opened Transcription
  import opened SentimentAnalysis
  import opened GptAdvice
  import AudioCapture

  /** A row id handed out by the session store; always positive, so always truthy. */
  type SessionId = x: int | x > 0 witness 1

  /** Chunks are transcribed in batches of this many. */
  const BatchSize: nat := 5

  /** What `handleSessionEnd` returns when there is something to summarise. */
  datatype SessionResult = SessionResult(summary: Summary, transcript: string, sessionId: SessionId)

  /** The module-level variables of the handlers. */
  datatype State = State(
    currentSessionId: Option<SessionId>,
    audioService: Option<AudioCapture.Capture>,
    audioBuffer: seq<seq<byte>>,
    fullTranscript: string,
    chunkCount: nat)

  const Initial: State := State(None, None, [], "", 0)

  /** Before the first event there is no session, no service and nothing buffered. */
  lemma InitialValid()
    ensures Valid(Initial)
    ensures Initial.currentSessionId.None? && Initial.audioService.None?
    ensures Initial.audioBuffer == [] && Initial.fullTranscript == ""
  {
  }

  /** How the collaborators behave while one event is handled. */
  datatype Outcomes = Outcomes(
    remote: Remote,
    sentiment: Classifier,
    advice: Chat<Option<string>>,
    summary: Chat<Content>,
    hasWindow: bool)

  datatype Event =
    | StartSession(newId: SessionId, start: AudioCapture.StartOutcome)
    | AudioData(now: int, chunk: seq<byte>, env: Outcomes)
    | TimerDue(now: int, env: Outcomes)
    | StopSession(env: Outcomes)

  /** What the handlers do outside their own state. */
  datatype Effect =
    | Transcribe(audio: seq<byte>)
    | AddInsight(sessionId: SessionId, text: string, sentiment: string, advice: string)
    | SendInsight(text: string, sentiment: string, advice: string)
    | EndSession(sessionId: SessionId, transcript: string, summary: Summary)
    | ResizeToSummary
    | SendSessionEnd(result: SessionResult)
    | StartReply(sessionId: SessionId)
    | StopReply(reply: Option<SessionResult>)

  datatype Step = Step(state: State, effects: seq<Effect>)

  datatype Ending = Ending(state: State, effects: seq<Effect>, result: Option<SessionResult>)

  /** Between events the count is the number of buffered chunks, below a
      full batch, and any capture service is itself consistent. */
  predicate Valid(s: State) {
    && s.chunkCount == |s.audioBuffer| < BatchSize
    && (s.audioService.Some? ==> AudioCapture.Valid(s.audioService.value))
  }

  /** `t` extends `s` by one separator and a non-blank text. */
  predicate AppendsText(s: string, t: string) {
    |t| > |s| + 1 && t[..|s| + 1] == s + " " && !IsBlank(t[|s| + 1..])
  }

  /** `start-session`. It does not look at the previous state: a session in
      progress is replaced, not refused. */
  function OnStartSession(id: SessionId, start: AudioCapture.StartOutcome): (r: Step)
    ensures Valid(r.state)
    ensures r.state.currentSessionId == Some(id)
    ensures r.state.audioBuffer == [] && r.state.chunkCount == 0 && r.state.fullTranscript == ""
    ensures r.effects == [StartReply(id)]
    // the new service records exactly when its recorder started, with no timer yet
    ensures r.state.audioService.Some?
    ensures r.state.audioService.value.isRecording <==> start == AudioCapture.Started
    ensures r.state.audioService.value.silenceDeadline.None?
  {
    // the service's 'error' listener only logs, so its signals have no effect
    var service := AudioCapture.StartRecording(AudioCapture.Initial, start);
    Step(State(Some(id), Some(service.state), [], "", 0), [StartReply(id)])
  }

  /** The effects of one non-blank transcription: persist it while a session
      is set, and show it when there is a window. */
  function InsightEffects(s: State, text: string, env: Outcomes): (e: seq<Effect>)
    ensures forall x :: x in e && x.AddInsight? ==> s.currentSessionId == Some(x.sessionId) && x.text == text
    // at most one insight stored and at most one shown, and nothing else
    ensures |e| == (if s.currentSessionId.Some? then 1 else 0) + (if env.hasWindow then 1 else 0)
    // the stored insight carries the text's sentiment label and advice
    ensures s.currentSessionId.Some? ==>
      e[0] == AddInsight(s.currentSessionId.value, text, AnalyzeSentiment(env.sentiment).name, GenerateAdvice(env.advice))
    // the same insight is shown exactly when there is a window
    ensures env.hasWindow <==> |e| > 0 && e[|e| - 1].SendInsight?
    ensures env.hasWindow ==>
      e[|e| - 1] == SendInsight(text, AnalyzeSentiment(env.sentiment).name, GenerateAdvice(env.advice))
  {
    var sentiment := AnalyzeSentiment(env.sentiment);
    var advice := GenerateAdvice(env.advice);
    (match s.currentSessionId
     case Some(id) => [AddInsight(id, text, sentiment.name, advice)]
     case None => [])
    + (if env.hasWindow then [SendInsight(text, sentiment.name, advice)] else [])
  }

  /** The `audio-chunk` listener. */
  function OnAudioChunk(s: State, chunk: seq<byte>, env: Outcomes): (r: Step)
    requires Valid(s)
    ensures Valid(r.state)
    ensures r.state.currentSessionId == s.currentSessionId && r.state.audioService == s.audioService
    // short of a batch the chunk is only buffered
    ensures s.chunkCount < BatchSize - 1 ==>
      r == Step(s.(audioBuffer := s.audioBuffer + [chunk], chunkCount := s.chunkCount + 1), [])
    // the fifth chunk empties the buffer and sends all five, in order, as one batch
    ensures s.chunkCount == BatchSize - 1 ==>
      r.state.audioBuffer == [] && |r.effects| > 0 && r.effects[0] == Transcribe(Concat(s.audioBuffer + [chunk]))
    // that batch is the buffered bytes followed by the new chunk
    ensures s.chunkCount == BatchSize - 1 ==> r.effects[0] == Transcribe(Concat(s.audioBuffer) + chunk)
    ensures forall i :: 0 < i < |r.effects| ==> !r.effects[i].Transcribe?
    // the transcript is unchanged or gains a separator and non-blank text
    ensures r.state.fullTranscript == s.fullTranscript || AppendsText(s.fullTranscript, r.state.fullTranscript)
    // insights are stored only for the appended text, under the current session
    ensures forall x :: x in r.effects && x.AddInsight? ==>
      && s.currentSessionId == Some(x.sessionId)
      && r.state.fullTranscript == s.fullTranscript + " " + x.text
    // after the batch come exactly the insight effects of the appended text
    ensures r.state.fullTranscript != s.fullTranscript ==>
      r.effects[1..] == InsightEffects(s, r.state.fullTranscript[|s.fullTranscript| + 1..], env)
    // a blank transcription of the batch has no effect beyond the request
    ensures s.chunkCount == BatchSize - 1 && r.state.fullTranscript == s.fullTranscript ==>
      r.effects == [Transcribe(Concat(s.audioBuffer + [chunk]))]
  {
    var buffer := s.audioBuffer + [chunk];
    var count := s.chunkCount + 1;
    ConcatAppend(s.audioBuffer, chunk);
    if count >= BatchSize then
      var audioData := Concat(buffer);
      var cleared := s.(audioBuffer := [], chunkCount := 0);
      var text := TranscribeAudio(audioData, env.remote).text;
      if !IsBlank(text) then
        var transcript := cleared.fullTranscript + " " + text;
        assert transcript[|s.fullTranscript| + 1..] == text;
        var effects := [Transcribe(audioData)] + InsightEffects(s, text, env);
        Step(cleared.(fullTranscript := transcript), effects)
      else
        Step(cleared, [Transcribe(audioData)])
    else
      Step(s.(audioBuffer := buffer, chunkCount := count), [])
  }

  /** `handleSessionEnd`. */
  function HandleSessionEnd(s: State, summary: Chat<Content>): (r: Ending)
    // the service is stopped and dropped; nothing else changes, so neither the
    // session id nor the transcript nor any buffered chunks are cleared
    ensures r.state == s.(audioService := None)
    // a record exactly when a session is set and its transcript is not blank
    ensures r.result.Some? <==> s.currentSessionId.Some? && !IsBlank(s.fullTranscript)
    ensures r.result.Some? ==>
      && r.result.value.transcript == s.fullTranscript
      && r.result.value.sessionId == s.currentSessionId.value
      && r.result.value.summary == GenerateSummary(summary)
      && r.effects == [EndSession(s.currentSessionId.value, s.fullTranscript, r.result.value.summary), ResizeToSummary]
    ensures r.result.None? ==> r.effects == []
  {
    var stopped := s.(audioService := None);
    if s.currentSessionId.Some? && !IsBlank(s.fullTranscript) then
      var summ := GenerateSummary(summary);
      var id := s.currentSessionId.value;
      Ending(stopped, [EndSession(id, s.fullTranscript, summ), ResizeToSummary],
        Some(SessionResult(summ, s.fullTranscript, id)))
    else
      Ending(stopped, [], None)
  }

  /** The `silence-detected` listener: forward the record, if any, to the window. */
  function OnSilence(s: State, env: Outcomes): (r: Step)
    ensures r.state == HandleSessionEnd(s, env.summary).state
    ensures forall x :: SendSessionEnd(x) in r.effects <==>
      env.hasWindow && HandleSessionEnd(s, env.summary).result == Some(x)
    // with a record the session is persisted and the window resized first;
    // without one nothing happens
    ensures var ending := HandleSessionEnd(s, env.summary);
      && (ending.result.Some? ==>
            && |r.effects| == (if env.hasWindow then 3 else 2)
            && r.effects[0] == EndSession(s.currentSessionId.value, s.fullTranscript, ending.result.value.summary)
            && r.effects[1] == ResizeToSummary)
      && (ending.result.None? ==> r.effects == [])
  {
    var ending := HandleSessionEnd(s, env.summary);
    Step(ending.state, ending.effects
      + (if env.hasWindow && ending.result.Some? then [SendSessionEnd(ending.result.value)] else []))
  }

  /** One emitted signal reaching its listener. */
  function Deliver(s: State, signal: AudioCapture.Signal, env: Outcomes): (r: Step)
    requires Valid(s)
    ensures Valid(r.state)
    ensures s.fullTranscript <= r.state.fullTranscript
  {
    match signal
    case AudioChunk(chunk) => OnAudioChunk(s, chunk, env)
    case SilenceDetected => OnSilence(s, env)
    case Error => Step(s, [])  // the 'error' listener only logs
  }

  /** Signals delivered in the order they were emitted. */
  function Dispatch(s: State, signals: seq<AudioCapture.Signal>, env: Outcomes): (r: Step)
    requires Valid(s)
    ensures Valid(r.state)
    ensures s.fullTranscript <= r.state.fullTranscript
    decreases |signals|
  {
    if |signals| == 0 then Step(s, [])
    else
      var first := Deliver(s, signals[0], env);
      var rest := Dispatch(first.state, signals[1..], env);
      Step(rest.state, first.effects + rest.effects)
  }

  /** The handlers' response to one event. Capture events reach the current
      service only; without one nothing happens. */
  function Next(s: State, e: Event): (r: Step)
    requires Valid(s)
    ensures Valid(r.state)
    ensures !e.StartSession? ==> s.fullTranscript <= r.state.fullTranscript
  {
    match e
    case StartSession(id, start) => OnStartSession(id, start)
    case AudioData(now, chunk, env) =>
      (match s.audioService
       case None => Step(s, [])
       case Some(service) =>
         var step := AudioCapture.OnData(service, now, chunk);
         Dispatch(s.(audioService := Some(step.state)), step.signals, env))
    case TimerDue(now, env) =>
      (match s.audioService
       case None => Step(s, [])
       case Some(service) =>
         var step := AudioCapture.OnTick(service, now);
         Dispatch(s.(audioService := Some(step.state)), step.signals, env))
    case StopSession(env) =>
      var ending := HandleSessionEnd(s, env.summary);
      Step(ending.state, ending.effects + [StopReply(ending.result)])
  }

  /** The events in order, with every effect along the way. */
  function Run(s: State, events: seq<Event>): (r: Step)
    requires Valid(s)
    ensures Valid(r.state)
    decreases |events|
  {
    if |events| == 0 then Step(s, [])
    else
      var before := Run(s, events[..|events| - 1]);
      var last := Next(before.state, events[|events| - 1]);
      Step(last.state, before.effects + last.effects)
  }

  /** Until a new session starts, the transcript is only ever extended. */
  lemma {:induction false} TranscriptOnlyGrows(s: State, events: seq<Event>)
    requires Valid(s)
    requires forall i :: 0 <= i < |events| ==> !events[i].StartSession?
    ensures s.fullTranscript <= Run(s, events).state.fullTranscript
    decreases |events|
  {
    if |events| > 0 {
      TranscriptOnlyGrows(s, events[..|events| - 1]);
    }
  }

  /** A batch's transcription, when it is text, is what gets appended. */
  lemma BatchTextAppended(s: State, chunk: seq<byte>, env: Outcomes)
    requires Valid(s) && s.chunkCount == BatchSize - 1
    ensures var text := TranscribeAudio(Concat(s.audioBuffer + [chunk]), env.remote).text;
      OnAudioChunk(s, chunk, env).state.fullTranscript ==
        (if text == "" then s.fullTranscript else s.fullTranscript + " " + text)
  {
  }

  /** Chunks fed to the listener one after another. */
  function FeedChunks(s: State, chunks: seq<seq<byte>>, env: Outcomes): (r: Step)
    requires Valid(s)
    ensures Valid(r.state)
    decreases |chunks|
  {
    if |chunks| == 0 then Step(s, [])
    else
      var before := FeedChunks(s, chunks[..|chunks| - 1], env);
      var last := OnAudioChunk(before.state, chunks[|chunks| - 1], env);
      Step(last.state, before.effects + last.effects)
  }

  /** From an empty buffer, fewer than five chunks are only buffered, in order. */
  lemma {:induction false} ChunksBufferedInOrder(s: State, chunks: seq<seq<byte>>, env: Outcomes)
    requires Valid(s) && s.audioBuffer == []
    requires |chunks| < BatchSize
    ensures FeedChunks(s, chunks, env) == Step(s.(audioBuffer := chunks, chunkCount := |chunks|), [])
    decreases |chunks|
  {
    if |chunks| > 0 {
      var prefix := chunks[..|chunks| - 1];
      var chunk := chunks[|chunks| - 1];
      var mid := s.(audioBuffer := prefix, chunkCount := |prefix|);
      assert FeedChunks(s, prefix, env) == Step(mid, []) by {
        ChunksBufferedInOrder(s, prefix, env);
      }
      assert OnAudioChunk(mid, chunk, env) == Step(s.(audioBuffer := chunks, chunkCount := |chunks|), []) by {
        assert prefix + [chunk] == chunks;
      }
    }
  }

  /** From an empty buffer, five chunks make exactly one batch: the five
      chunks concatenated in arrival order, and the buffer is empty again. */
  lemma FiveChunksMakeOneBatch(s: State, chunks: seq<seq<byte>>, env: Outcomes)
    requires Valid(s) && s.audioBuffer == []
    requires |chunks| == BatchSize
    ensures var r := FeedChunks(s, chunks, env);
      && r.state.audioBuffer == [] && r.state.chunkCount == 0
      && |r.effects| > 0 && r.effects[0] == Transcribe(Concat(chunks))
      && |r.effects[0].audio| == TotalLength(chunks)
      && forall i :: 0 < i < |r.effects| ==> !r.effects[i].Transcribe?
  {
    var prefix := chunks[..BatchSize - 1];
    ChunksBufferedInOrder(s, prefix, env);
    assert prefix + [chunks[BatchSize - 1]] == chunks;
  }

  /** The audio of the `Transcribe` effects, in the order they were emitted. */
  function Batches(effects: seq<Effect>): seq<seq<byte>>
    decreases |effects|
  {
    if |effects| == 0 then []
    else (if effects[0].Transcribe? then [effects[0].audio] else []) + Batches(effects[1..])
  }

  lemma {:induction false} BatchesAppend(a: seq<Effect>, b: seq<Effect>)
    ensures Batches(a + b) == Batches(a) + Batches(b)
    decreases |a|
  {
    if |a| == 0 {
      assert a + b == b;
    } else {
      assert (a + b)[0] == a[0] && (a + b)[1..] == a[1..] + b;
      BatchesAppend(a[1..], b);
    }
  }

  /** Effects with a leading `Transcribe` and no other hold exactly one batch. */
  lemma {:induction false} SingleBatch(e: seq<Effect>, first: nat)
    requires first <= 1 && first <= |e|
    requires first == 1 ==> e[0].Transcribe?
    requires forall i :: first <= i < |e| ==> !e[i].Transcribe?
    ensures Batches(e) == if first == 1 then [e[0].audio] else []
    decreases |e|
  {
    if |e| > 0 {
      SingleBatch(e[1..], 0);
    }
  }

  /** `batches` are `chunks` cut into consecutive runs of five, each
      concatenated, and `buffer` holds the chunks after the last full run. */
  predicate BatchedAs(chunks: seq<seq<byte>>, batches: seq<seq<byte>>, buffer: seq<seq<byte>>) {
    && buffer == chunks[|chunks| / BatchSize * BatchSize..]
    && |batches| == |chunks| / BatchSize
    && forall k :: 0 <= k < |batches| ==>
         batches[k] == Concat(chunks[k * BatchSize..k * BatchSize + BatchSize])
  }

  /** One more chunk either joins the leftover chunks or completes a run of five. */
  lemma BatchedAsStep(prefix: seq<seq<byte>>, chunk: seq<byte>, batches: seq<seq<byte>>, buffer: seq<seq<byte>>)
    requires BatchedAs(prefix, batches, buffer)
    ensures |buffer| < BatchSize - 1 ==> BatchedAs(prefix + [chunk], batches, buffer + [chunk])
    ensures |buffer| == BatchSize - 1 ==> BatchedAs(prefix + [chunk], batches + [Concat(buffer + [chunk])], [])
  {
    var chunks := prefix + [chunk];
    var n := |chunks|;
    var q := |prefix| / BatchSize;
    assert prefix == chunks[..n - 1];
    forall k | 0 <= k < q
      ensures prefix[k * BatchSize..k * BatchSize + BatchSize] == chunks[k * BatchSize..k * BatchSize + BatchSize]
    {
    }
    if |buffer| < BatchSize - 1 {
      assert n / BatchSize == q;
      assert buffer + [chunk] == chunks[q * BatchSize..];
    } else if |buffer| == BatchSize - 1 {
      assert n == q * BatchSize + BatchSize && n / BatchSize == q + 1;
      assert buffer + [chunk] == chunks[q * BatchSize..q * BatchSize + BatchSize];
      var extended := batches + [Concat(buffer + [chunk])];
      forall k | 0 <= k < |extended|
        ensures extended[k] == Concat(chunks[k * BatchSize..k * BatchSize + BatchSize])
      {
        if k < q {
          assert extended[k] == batches[k];
        }
      }
    }
  }

  /** From an empty buffer, any run of chunks is transcribed in consecutive
      batches of five: the k-th transcription is chunks 5k to 5k+4
      concatenated, and the chunks after the last full batch stay buffered. */
  lemma {:induction false} EveryFifthChunkMakesABatch(s: State, chunks: seq<seq<byte>>, env: Outcomes)
    requires Valid(s) && s.audioBuffer == []
    ensures var r := FeedChunks(s, chunks, env);
      BatchedAs(chunks, Batches(r.effects), r.state.audioBuffer)
    decreases |chunks|
  {
    if |chunks| == 0 {
      assert BatchedAs(chunks, [], []);
    } else {
      var prefix := chunks[..|chunks| - 1];
      var chunk := chunks[|chunks| - 1];
      assert prefix + [chunk] == chunks;
      var before := FeedChunks(s, prefix, env);
      var last := OnAudioChunk(before.state, chunk, env);
      assert FeedChunks(s, chunks, env) == Step(last.state, before.effects + last.effects);
      EveryFifthChunkMakesABatch(s, prefix, env);
      BatchedAsStep(prefix, chunk, Batches(before.effects), before.state.audioBuffer);
      BatchesAppend(before.effects, last.effects);
      if |before.state.audioBuffer| < BatchSize - 1 {
        assert Batches(last.effects) == [] && last.state.audioBuffer == before.state.audioBuffer + [chunk] by {
          SingleBatch(last.effects, 0);
        }
      } else {
        assert Batches(last.effects) == [Concat(before.state.audioBuffer + [chunk])]
            && last.state.audioBuffer == [] by {
          SingleBatch(last.effects, 1);
        }
      }
    }
  }

  /** Stopping twice returns the same record: the first stop clears neither
      the session id nor the transcript. */
  lemma SecondStopSameRecord(s: State, first: Chat<Content>, second: Chat<Content>)
    requires Valid(s)
    ensures var e1 := HandleSessionEnd(s, first);
      var e2 := HandleSessionEnd(e1.state, second);
      && e2.result.Some? == e1.result.Some?
      && (e1.result.Some? ==>
            e2.result.value.transcript == e1.result.value.transcript
            && e2.result.value.sessionId == e1.result.value.sessionId)
  {
  }

  /** `start-session` while a session is recording still discards its
      transcript and replaces its id. */
  lemma RestartDiscardsTranscript(s: State, id: SessionId, start: AudioCapture.StartOutcome)
    requires Valid(s) && s.audioService.Some? && s.audioService.value.isRecording
    ensures Next(s, StartSession(id, start)).state.fullTranscript == ""
    ensures Next(s, StartSession(id, start)).state.currentSessionId == Some(id)
  {
  }

  /** A due silence timer ends the session: the service is gone, the
      transcript and id are kept, and the window gets the record exactly when
      there is one. A timer that is not due changes nothing. */
  lemma SilenceEndsSession(s: State, now: int, env: Outcomes)
    requires Valid(s) && s.audioService.Some?
    ensures var d := s.audioService.value.silenceDeadline;
      var r := Next(s, TimerDue(now, env));
      if d.Some? && now >= d.value then
        && r.state == s.(audioService := None)
        && (forall x :: SendSessionEnd(x) in r.effects <==>
              env.hasWindow && HandleSessionEnd(s, env.summary).result == Some(x))
        && (HandleSessionEnd(s, env.summary).result.Some? ==>
              && EndSession(s.currentSessionId.value, s.fullTranscript, GenerateSummary(env.summary)) in r.effects
              && ResizeToSummary in r.effects)
        && (HandleSessionEnd(s, env.summary).result.None? ==> r.effects == [])
      else
        r == Step(s, [])
  {
    var service := s.audioService.value;
    var step := AudioCapture.OnTick(service, now);
    var s1 := s.(audioService := Some(step.state));
    if step.signals == [AudioCapture.SilenceDetected] {
      assert HandleSessionEnd(s1, env.summary) == HandleSessionEnd(s, env.summary).(state := s1.(audioService := None));
      assert Dispatch(s1, step.signals, env) == OnSilence(s1, env) by {
        assert step.signals[1..] == [];
      }
    }
  }

  /** An audio event reaches the chunk listener exactly when a service is
      recording: the deadline is re-armed first, then the listener runs on
      the chunk. Otherwise the event does nothing. */
  lemma AudioDataReachesListener(s: State, now: int, chunk: seq<byte>, env: Outcomes)
    requires Valid(s)
    ensures var r := Next(s, AudioData(now, chunk, env));
      if s.audioService.Some? && s.audioService.value.isRecording then
        r == OnAudioChunk(s.(audioService := Some(AudioCapture.ResetSilenceTimer(s.audioService.value, now))), chunk, env)
      else
        r == Step(s, [])
  {
    if s.audioService.Some? && s.audioService.value.isRecording {
      var s1 := s.(audioService := Some(AudioCapture.ResetSilenceTimer(s.audioService.value, now)));
      var signals := [AudioCapture.AudioChunk(chunk)];
      assert signals[1..] == [];
      var first := OnAudioChunk(s1, chunk, env);
      assert Dispatch(s1, signals, env) == Step(first.state, first.effects + []);
      assert first.effects + [] == first.effects;
    }
  }
}

=== FILE: speech.dfy ===
/**
 * `hasActualSpeech`: the buffer is read as little-endian 16-bit samples and
 * passes when their mean absolute amplitude exceeds a fixed threshold. The
 * source divides in floating point; here the comparison is kept in integers
 * as `sum |s| > 500 * n`, and `MeanAboveThreshold` ties it to the exact mean.
 */
module Speech {
  import opened Bytes

  const MinSpeechEnergy: nat := 500

  /** `new Int16Array(len / 2)`: an odd trailing byte is not a sample. */
  function SampleCount(audio: seq<byte>): nat {
    |audio| / 2
  }

  function Samples(audio: seq<byte>): (s: seq<int>)
    ensures |s| == SampleCount(audio)
    ensures forall i :: 0 <= i < |s| ==> s[i] == ReadInt16LE(audio, 2 * i)
  {
    seq(|audio| / 2, i requires 0 <= i < |audio| / 2 => ReadInt16LE(audio, 2 * i))
  }

  function Abs(x: int): nat {
    if x < 0 then -x else x
  }

  /** Sum of magnitudes, accumulated front to back as the source's loop does. */
  function SumAbs(s: seq<int>): nat
    decreases |s|
  {
    if |s| == 0 then 0 else SumAbs(s[..|s| - 1]) + Abs(s[|s| - 1])
  }

  /** The speech test. With no samples the source's mean is `0 / 0`, which
      is NaN and compares false; `0 > 0` is false as well. */
  predicate HasActualSpeech(audio: seq<byte>)
    // a buffer without a single whole sample is never speech
    ensures HasActualSpeech(audio) ==> SampleCount(audio) > 0
  {
    SumAbs(Samples(audio)) > MinSpeechEnergy * SampleCount(audio)
  }

  /** The source's two loops: decode every sample, then sum their magnitudes. */
  method ScanForSpeech(audio: seq<byte>) returns (speech: bool)
    ensures speech <==> HasActualSpeech(audio)
  {
    var n := |audio| / 2;
    var samples: seq<int> := [];
    var i := 0;
    while i < n
      invariant 0 <= i <= n
      invariant samples == Samples(audio)[..i]
    {
      samples := samples + [ReadInt16LE(audio, i * 2)];
      i := i + 1;
    }
    assert samples == Samples(audio);
    var energySum := 0;
    i := 0;
    while i < n
      invariant 0 <= i <= n
      invariant energySum == SumAbs(samples[..i])
    {
      assert samples[..i + 1][..i] == samples[..i];
      energySum := energySum + Abs(samples[i]);
      i := i + 1;
    }
    assert samples[..n] == samples;
    speech := energySum > MinSpeechEnergy * n;
  }

  /** If no sample is louder than the threshold, neither is their sum. */
  lemma {:induction false} SumAbsAtMostThreshold(s: seq<int>)
    requires forall i :: 0 <= i < |s| ==> Abs(s[i]) <= MinSpeechEnergy
    ensures SumAbs(s) <= MinSpeechEnergy * |s|
    decreases |s|
  {
    if |s| > 0 {
      SumAbsAtMostThreshold(s[..|s| - 1]);
    }
  }

  /** If every sample is louder than the threshold, so is their sum. */
  lemma {:induction false} SumAbsAboveThreshold(s: seq<int>)
    requires |s| > 0
    requires forall i :: 0 <= i < |s| ==> Abs(s[i]) > MinSpeechEnergy
    ensures SumAbs(s) > MinSpeechEnergy * |s|
    decreases |s|
  {
    if |s| > 1 {
      SumAbsAboveThreshold(s[..|s| - 1]);
    }
  }

  /** Audio in which no sample exceeds the threshold (digital silence, quiet
      hiss) is never taken for speech. */
  lemma QuietAudioIsNotSpeech(audio: seq<byte>)
    requires forall i :: 0 <= i < SampleCount(audio) ==> Abs(ReadInt16LE(audio, 2 * i)) <= MinSpeechEnergy
    ensures !HasActualSpeech(audio)
  {
    SumAbsAtMostThreshold(Samples(audio));
  }

  /** Audio with at least one sample, all of them louder than the threshold,
      is always taken for speech. */
  lemma LoudAudioIsSpeech(audio: seq<byte>)
    requires SampleCount(audio) > 0
    requires forall i :: 0 <= i < SampleCount(audio) ==> Abs(ReadInt16LE(audio, 2 * i)) > MinSpeechEnergy
    ensures HasActualSpeech(audio)
  {
    SumAbsAboveThreshold(Samples(audio));
  }

  /** Dividing by a positive count preserves the comparison with the threshold. */
  lemma MeanVersusSum(sum: nat, n: nat)
    requires n > 0
    ensures (sum as real) / (n as real) > MinSpeechEnergy as real <==> sum > MinSpeechEnergy * n
  {
    var mean := (sum as real) / (n as real);
    var t := MinSpeechEnergy as real;
    assert mean * (n as real) == sum as real;
    if mean > t {
      assert (mean - t) * (n as real) > 0.0;
    } else {
      assert (t - mean) * (n as real) >= 0.0;
    }
  }

  /** The integer test is the source's `energySum / samples.length > 500`
      evaluated exactly: speech iff there are samples and their mean
      magnitude, as a real number, exceeds the threshold. */
  lemma MeanAboveThreshold(audio: seq<byte>)
    ensures HasActualSpeech(audio) <==>
      SampleCount(audio) > 0 && (SumAbs(Samples(audio)) as real) / (SampleCount(audio) as real) > MinSpeechEnergy as real
  {
    if SampleCount(audio) > 0 {
      MeanVersusSum(SumAbs(Samples(audio)), SampleCount(audio));
    }
  }
}

=== FILE: text.dfy ===
/**
 * String predicates the core relies on: JavaScript's `String.prototype.trim`
 * (used as a truthiness test, `s.trim()` is falsy exactly when it is empty)
 * and `toLowerCase` restricted to ASCII letters.
 */
module Text {

  /** The code points ECMAScript's `trim` removes: the WhiteSpace and
      LineTerminator productions of the ECMAScript language specification
      (TAB, LF, VT, FF, CR, SPACE, NBSP, ZWNBSP, LS, PS and category Zs). */
  predicate IsJsWhitespace(c: char) {
    var n := c as int;
    || n == 0x09 || n == 0x0A || n == 0x0B || n == 0x0C || n == 0x0D
    || n == 0x20 || n == 0xA0 || n == 0x1680
    || (0x2000 <= n <= 0x200A)
    || n == 0x2028 || n == 0x2029 || n == 0x202F || n == 0x205F
    || n == 0x3000 || n == 0xFEFF
  }

  /** True when the string holds nothing but whitespace (the empty string included). */
  predicate IsBlank(s: string) {
    forall i :: 0 <= i < |s| ==> IsJsWhitespace(s[i])
  }

  /** Drops leading whitespace. */
  function TrimStart(s: string): (r: string)
    ensures |r| <= |s| && r == s[|s| - |r|..]
    ensures IsBlank(s[..|s| - |r|])
    ensures |r| > 0 ==> !IsJsWhitespace(r[0])
    decreases |s|
  {
    if |s| > 0 && IsJsWhitespace(s[0]) then
      var r := TrimStart(s[1..]);
      var cut := s[..|s| - |r|];
      forall i | 0 <= i < |cut|
        ensures IsJsWhitespace(cut[i])
      {
        if i > 0 {
          assert cut[i] == s[1..][..|s| - 1 - |r|][i - 1];
        }
      }
      r
    else
      s
  }

  /** Drops trailing whitespace. */
  function TrimEnd(s: string): (r: string)
    ensures |r| <= |s| && r == s[..|r|]
    ensures IsBlank(s[|r|..])
    ensures |r| > 0 ==> !IsJsWhitespace(r[|r| - 1])
    decreases |s|
  {
    if |s| > 0 && IsJsWhitespace(s[|s| - 1]) then
      var r := TrimEnd(s[..|s| - 1]);
      var cut := s[|r|..];
      forall i | 0 <= i < |cut|
        ensures IsJsWhitespace(cut[i])
      {
        if i < |s| - 1 - |r| {
          assert cut[i] == s[..|s| - 1][|r|..][i];
        }
      }
      r
    else
      s
  }

  /** JavaScript's `trim`: a middle slice of the input, everything cut off
      on either side is whitespace, and it neither starts nor ends with
      whitespace. */
  function Trim(s: string): (r: string)
    ensures exists k :: 0 <= k <= |s| - |r| && r == s[k..k + |r|] && IsBlank(s[..k]) && IsBlank(s[k + |r|..])
    ensures |r| > 0 ==> !IsJsWhitespace(r[0]) && !IsJsWhitespace(r[|r| - 1])
  {
    var t := TrimStart(s);
    TrimIsSlice(s, t, TrimEnd(t));
    TrimEnd(t)
  }

  /** The slice `Trim` keeps, located in the input. */
  lemma TrimIsSlice(s: string, t: string, r: string)
    requires |t| <= |s| && t == s[|s| - |t|..] && IsBlank(s[..|s| - |t|])
    requires |r| <= |t| && r == t[..|r|] && IsBlank(t[|r|..])
    ensures var k := |s| - |t|;
      0 <= k <= |s| - |r| && r == s[k..k + |r|] && IsBlank(s[..k]) && IsBlank(s[k + |r|..])
    ensures |r| > 0 ==> r[0] == t[0]
  {
    var k := |s| - |t|;
    forall i | 0 <= i < |r|
      ensures r[i] == s[k..k + |r|][i]
    {
      assert r[i] == t[i] == s[k + i];
    }
    var cut := s[k + |r|..];
    forall i | 0 <= i < |cut|
      ensures IsJsWhitespace(cut[i])
    {
      assert IsJsWhitespace(t[|r|..][i]);
      assert t[|r|..][i] == t[|r| + i] == s[k + |r| + i];
    }
  }

  /** `s.trim()` is the empty (falsy) string exactly when `s` is blank. */
  lemma TrimEmptyIffBlank(s: string)
    ensures Trim(s) == "" <==> IsBlank(s)
  {
    var t := TrimStart(s);
    if Trim(s) == "" {
      assert IsBlank(t) by { assert t[0..] == t; }
      assert |t| == 0;
      assert s[..|s|] == s;
    }
    if IsBlank(s) {
      assert |t| == 0;
    }
  }

  /** Lower-cases one ASCII letter; every other character is kept. */
  function LowerChar(c: char): char {
    if 'A' <= c <= 'Z' then (c as int + 32) as char else c
  }

  predicate IsLowerChar(c: char) {
    !('A' <= c <= 'Z')
  }

  /** True when the string has no upper-case ASCII letter. */
  predicate IsLower(s: string) {
    forall i :: 0 <= i < |s| ==> IsLowerChar(s[i])
  }

  /** ASCII `toLowerCase`. */
  function ToLower(s: string): (r: string)
    ensures |r| == |s|
    ensures IsLower(r)
    ensures forall i :: 0 <= i < |s| && IsLowerChar(s[i]) ==> r[i] == s[i]
    ensures forall i :: 0 <= i < |s| && !IsLowerChar(s[i]) ==> r[i] as int == s[i] as int + 32
  {
    seq(|s|, i requires 0 <= i < |s| => LowerChar(s[i]))
  }

  /** Lower-casing changes a string exactly when it has an upper-case letter,
      so it is idempotent. */
  lemma ToLowerFixesLower(s: string)
    ensures ToLower(s) == s <==> IsLower(s)
    ensures ToLower(ToLower(s)) == ToLower(s)
  {
    if IsLower(s) {
      assert ToLower(s) == s;
    }
    assert ToLower(ToLower(s)) == ToLower(s);
  }
}

=== FILE: transcription.dfy ===
/**
 * `transcribeAudio`: a gate in fixed order (buffer size, then speech energy)
 * in front of the one remote speech-to-text call, with every failure
 * degrading to the empty string. The local model is loaded elsewhere but
 * never consulted, so the only collaborator here is the remote one.
 */
module Transcription {
  import opened Wrappers
  import opened Bytes
  import opened Text
  import opened Wav
  import opened Speech

  /** Buffers shorter than this are skipped without further checks. */
  const MinBufferBytes: nat := 2000

  /** What the remote service does with one request. */
  datatype Remote =
    | NoClient               // no API key was configured, so no client exists
    | SetupFailed            // locating the temp directory or writing the file threw: no request made
    | Threw                  // the request itself or the temp-file cleanup threw
    | Replied(text: string)  // the response's `text` (an absent text reads as "")

  /** Why the gate stopped a buffer, or that it let it through. */
  datatype Gate = TooSmall | NoSpeech | Admitted

  /** What one call did: the WAV file handed to the service, if any, and the
      text returned to the caller. */
  datatype Attempt = Attempt(sent: Option<seq<byte>>, text: string)

  /** The two checks, size first; the energy check only sees buffers that
      passed the size check. */
  function Admit(audio: seq<byte>): (g: Gate)
    ensures g == TooSmall <==> |audio| < MinBufferBytes
    ensures g == NoSpeech <==> |audio| >= MinBufferBytes && !HasActualSpeech(audio)
    ensures g == Admitted <==> |audio| >= MinBufferBytes && HasActualSpeech(audio)
  {
    if |audio| < MinBufferBytes then TooSmall
    else if !HasActualSpeech(audio) then NoSpeech
    else Admitted
  }

  function TranscribeAudio(audio: seq<byte>, remote: Remote): (r: Attempt)
    // whatever comes back is either nothing or real text
    ensures r.text == "" || !IsBlank(r.text)
    // a rejected buffer never reaches the service
    ensures Admit(audio) != Admitted ==> r == Attempt(None, "")
    // an admitted buffer is sent, as a WAV file, whenever a client exists and
    // the header and the temp file could be made
    ensures Admit(audio) == Admitted ==>
      (r.sent.Some? <==> !remote.NoClient? && !remote.SetupFailed? && CreateWavHeader(|audio|).Some?)
    ensures r.sent.Some? ==> r.sent == Some(CreateWavHeader(|audio|).value + audio)
    // the text is the service's own, untrimmed, exactly when it is not blank
    ensures r.text != "" <==> r.sent.Some? && remote.Replied? && !IsBlank(remote.text)
    ensures r.text != "" ==> r.text == remote.text
  {
    if Admit(audio) != Admitted then Attempt(None, "")
    else if remote.NoClient? || remote.SetupFailed? then Attempt(None, "")
    else
      match CreateWavHeader(|audio|)
      case None => Attempt(None, "")  // writeUInt32LE throws inside the try
      case Some(header) =>
        var wav := header + audio;
        if remote.Replied? && !IsBlank(remote.text) then Attempt(Some(wav), remote.text)
        else Attempt(Some(wav), "")
  }

  /** The file the service receives is a well-formed WAV file whose header
      announces exactly the buffer's length and whose body is the buffer. */
  lemma SentFileCarriesAudio(audio: seq<byte>, remote: Remote)
    requires TranscribeAudio(audio, remote).sent.Some?
    ensures var wav := TranscribeAudio(audio, remote).sent.value;
      && ParseWavHeader(wav) == Some(|audio|)
      && wav[HeaderSize..] == audio
      && DecodeU32LE(wav[4..8]) == |wav| - 8
  {
    var wav := TranscribeAudio(audio, remote).sent.value;
    ParseCreateRoundTrip(|audio|, audio);
    RiffSizeIsFileLengthMinus8(audio);
  }

  /** Short buffers are dropped before the energy check, so even a loud one
      yields nothing. */
  lemma TooSmallNeverTranscribed(audio: seq<byte>, remote: Remote)
    requires |audio| < MinBufferBytes
    ensures TranscribeAudio(audio, remote) == Attempt(None, "")
  {
  }

  /** Quiet audio long enough to pass the size check still never reaches the service. */
  lemma QuietAudioNeverTranscribed(audio: seq<byte>, remote: Remote)
    requires forall i :: 0 <= i < SampleCount(audio) ==> Abs(ReadInt16LE(audio, 2 * i)) <= MinSpeechEnergy
    ensures TranscribeAudio(audio, remote) == Attempt(None, "")
  {
    QuietAudioIsNotSpeech(audio);
  }
}

=== FILE: wav.dfy ===
/**
 * The canonical 44-byte header of a Microsoft RIFF/WAVE file holding 16 kHz
 * mono 16-bit PCM: a `RIFF` chunk descriptor of type `WAVE`, a 16-byte `fmt `
 * sub-chunk, and the header of the `data` sub-chunk that the samples follow.
 */
module Wav {
  import opened Wrappers
  import opened Bytes

  const HeaderSize: nat := 44
  const FmtChunkSize: nat := 16
  const PcmFormat: nat := 1
  const Channels: nat := 1
  const SampleRate: nat := 16000
  const ByteRate: nat := 32000
  const BlockAlign: nat := 2
  const BitsPerSample: nat := 16

  const RiffTag: seq<byte> := Ascii("RIFF")
  const WaveTag: seq<byte> := Ascii("WAVE")
  const FmtTag: seq<byte> := Ascii("fmt ")
  const DataTag: seq<byte> := Ascii("data")

  /** The four tags `header.write` puts at offsets 0, 8, 12 and 36, as the
      character codes of `RIFF`, `WAVE`, `fmt ` and `data`. */
  lemma TagBytes()
    ensures RiffTag == [0x52, 0x49, 0x46, 0x46]
    ensures WaveTag == [0x57, 0x41, 0x56, 0x45]
    ensures FmtTag == [0x66, 0x6D, 0x74, 0x20]
    ensures DataTag == [0x64, 0x61, 0x74, 0x61]
  {
  }

  /** Every fixed field of a header whose data chunk is `dataLength` bytes long,
      read back from the bytes at the offsets the format defines. */
  predicate HeaderFields(h: seq<byte>, dataLength: nat)
    requires |h| >= HeaderSize
  {
    && h[0..4] == RiffTag
    && DecodeU32LE(h[4..8]) == 36 + dataLength
    && h[8..12] == WaveTag
    && h[12..16] == FmtTag
    && DecodeU32LE(h[16..20]) == FmtChunkSize
    && DecodeU16LE(h[20..22]) == PcmFormat
    && DecodeU16LE(h[22..24]) == Channels
    && DecodeU32LE(h[24..28]) == SampleRate
    && DecodeU32LE(h[28..32]) == ByteRate
    && DecodeU16LE(h[32..34]) == BlockAlign
    && DecodeU16LE(h[34..36]) == BitsPerSample
    && h[36..40] == DataTag
    && DecodeU32LE(h[40..44]) == dataLength
  }

  /** `createWavHeader`. The RIFF size field is `36 + dataLength` and must fit
      in 32 bits; otherwise Node's `writeUInt32LE` throws a range error,
      modelled as `None`. */
  function CreateWavHeader(dataLength: nat): (r: Option<seq<byte>>)
    ensures r.Some? <==> 36 + dataLength < TwoTo32
    ensures r.Some? ==> |r.value| == HeaderSize && HeaderFields(r.value, dataLength)
  {
    if 36 + dataLength < TwoTo32 then
      var riff := RiffTag + EncodeU32LE(36 + dataLength) + WaveTag + FmtTag;
      var fmt := EncodeU32LE(FmtChunkSize) + EncodeU16LE(PcmFormat) + EncodeU16LE(Channels)
        + EncodeU32LE(SampleRate) + EncodeU32LE(ByteRate)
        + EncodeU16LE(BlockAlign) + EncodeU16LE(BitsPerSample);
      var data := DataTag + EncodeU32LE(dataLength);
      var h := riff + fmt + data;
      assert HeaderFields(h, dataLength) by {
        assert h[0..16] == riff && h[16..36] == fmt && h[36..44] == data;
        assert h[0..4] == riff[0..4] && h[4..8] == riff[4..8] && h[8..12] == riff[8..12] && h[12..16] == riff[12..16];
        assert h[16..20] == fmt[0..4] && h[20..22] == fmt[4..6] && h[22..24] == fmt[6..8];
        assert h[24..28] == fmt[8..12] && h[28..32] == fmt[12..16];
        assert h[32..34] == fmt[16..18] && h[34..36] == fmt[18..20];
        assert h[36..40] == data[0..4] && h[40..44] == data[4..8];
        U32RoundTrip(36 + dataLength);
        U32RoundTrip(FmtChunkSize);
        U16RoundTrip(PcmFormat);
        U16RoundTrip(Channels);
        U32RoundTrip(SampleRate);
        U32RoundTrip(ByteRate);
        U16RoundTrip(BlockAlign);
        U16RoundTrip(BitsPerSample);
        U32RoundTrip(dataLength);
      }
      Some(h)
    else
      None
  }

  /** An independent reader: the data length a buffer's leading header
      announces, or `None` when the buffer does not start with a header of
      exactly this format. */
  function ParseWavHeader(b: seq<byte>): (r: Option<nat>)
  {
    if |b| < HeaderSize then None
    else
      var n := DecodeU32LE(b[40..44]);
      if HeaderFields(b, n) then Some(n) else None
  }

  /** Reading the header of `header ++ samples` gives back the data length. */
  lemma ParseCreateRoundTrip(dataLength: nat, samples: seq<byte>)
    requires CreateWavHeader(dataLength).Some?
    ensures ParseWavHeader(CreateWavHeader(dataLength).value + samples) == Some(dataLength)
  {
    var h := CreateWavHeader(dataLength).value;
    var b := h + samples;
    assert b[..HeaderSize] == h;
    assert b[0..4] == h[0..4] && b[4..8] == h[4..8] && b[8..12] == h[8..12];
    assert b[12..16] == h[12..16] && b[16..20] == h[16..20] && b[20..22] == h[20..22];
    assert b[22..24] == h[22..24] && b[24..28] == h[24..28] && b[28..32] == h[28..32];
    assert b[32..34] == h[32..34] && b[34..36] == h[34..36] && b[36..40] == h[36..40];
    assert b[40..44] == h[40..44];
  }

  /** Two buffers that agree on what every field decodes to agree on the bytes. */
  lemma FieldsDetermineBytes(a: seq<byte>, b: seq<byte>, n: nat)
    requires |a| >= HeaderSize && |b| >= HeaderSize
    requires HeaderFields(a, n) && HeaderFields(b, n)
    ensures a[..HeaderSize] == b[..HeaderSize]
  {
    assert a[4..8] == b[4..8] by { U32Canonical(a[4..8]); U32Canonical(b[4..8]); }
    assert a[16..20] == b[16..20] by { U32Canonical(a[16..20]); U32Canonical(b[16..20]); }
    assert a[20..22] == b[20..22] by { U16Canonical(a[20..22]); U16Canonical(b[20..22]); }
    assert a[22..24] == b[22..24] by { U16Canonical(a[22..24]); U16Canonical(b[22..24]); }
    assert a[24..28] == b[24..28] by { U32Canonical(a[24..28]); U32Canonical(b[24..28]); }
    assert a[28..32] == b[28..32] by { U32Canonical(a[28..32]); U32Canonical(b[28..32]); }
    assert a[32..34] == b[32..34] by { U16Canonical(a[32..34]); U16Canonical(b[32..34]); }
    assert a[34..36] == b[34..36] by { U16Canonical(a[34..36]); U16Canonical(b[34..36]); }
    assert a[40..44] == b[40..44] by { U32Canonical(a[40..44]); U32Canonical(b[40..44]); }
    forall i | 0 <= i < HeaderSize
      ensures a[i] == b[i]
    {
      if i < 4 { assert a[i] == a[0..4][i] && b[i] == b[0..4][i]; }
      else if i < 8 { assert a[i] == a[4..8][i - 4] && b[i] == b[4..8][i - 4]; }
      else if i < 12 { assert a[i] == a[8..12][i - 8] && b[i] == b[8..12][i - 8]; }
      else if i < 16 { assert a[i] == a[12..16][i - 12] && b[i] == b[12..16][i - 12]; }
      else if i < 20 { assert a[i] == a[16..20][i - 16] && b[i] == b[16..20][i - 16]; }
      else if i < 22 { assert a[i] == a[20..22][i - 20] && b[i] == b[20..22][i - 20]; }
      else if i < 24 { assert a[i] == a[22..24][i - 22] && b[i] == b[22..24][i - 22]; }
      else if i < 28 { assert a[i] == a[24..28][i - 24] && b[i] == b[24..28][i - 24]; }
      else if i < 32 { assert a[i] == a[28..32][i - 28] && b[i] == b[28..32][i - 28]; }
      else if i < 34 { assert a[i] == a[32..34][i - 32] && b[i] == b[32..34][i - 32]; }
      else if i < 36 { assert a[i] == a[34..36][i - 34] && b[i] == b[34..36][i - 34]; }
      else if i < 40 { assert a[i] == a[36..40][i - 36] && b[i] == b[36..40][i - 36]; }
      else { assert a[i] == a[40..44][i - 40] && b[i] == b[40..44][i - 40]; }
    }
  }

  /** Conversely, the header is the only one announcing its length: whatever a
      buffer starts with, if it parses as announcing `n` bytes then its first
      44 bytes are exactly `createWavHeader(n)`. */
  lemma CreateParseRoundTrip(b: seq<byte>)
    requires ParseWavHeader(b).Some?
    ensures CreateWavHeader(ParseWavHeader(b).value) == Some(b[..HeaderSize])
  {
    var n := ParseWavHeader(b).value;
    var h := CreateWavHeader(n).value;
    FieldsDetermineBytes(h, b, n);
    assert h[..HeaderSize] == h;
  }

  /** The format fields agree with one another: the byte rate is the sample
      rate times the block size, and a block holds one sample per channel. */
  lemma HeaderSelfConsistent(dataLength: nat)
    requires CreateWavHeader(dataLength).Some?
    ensures var h := CreateWavHeader(dataLength).value;
      && DecodeU32LE(h[28..32]) == DecodeU32LE(h[24..28]) * DecodeU16LE(h[32..34])
      && DecodeU16LE(h[32..34]) * 8 == DecodeU16LE(h[22..24]) * DecodeU16LE(h[34..36])
  {
  }

  /** The RIFF size field of `header ++ samples` is the file length minus the
      8 bytes of the RIFF tag and the size field itself. */
  lemma RiffSizeIsFileLengthMinus8(samples: seq<byte>)
    requires CreateWavHeader(|samples|).Some?
    ensures var f := CreateWavHeader(|samples|).value + samples;
      DecodeU32LE(f[4..8]) == |f| - 8
  {
    var h := CreateWavHeader(|samples|).value;
    assert (h + samples)[4..8] == h[4..8];
  }
}

=== FILE: wrappers.dfy ===
/** The optional-value datatype used wherever the source has `T | null`. */
module Wrappers {

  datatype Option<+T> = None | Some(value: T) {

    /** The value if present, otherwise `default` (the source's `x || default` on non-falsy kinds). */
    function GetOr(default: T): T {
      match this
      case Some(v) => v
      case None => default
    }
  }
}
